=== FILE: README.md ===
# Pixel-grid core of the Lab4 image scripts

The repository has four scripts. Each one crops a region of the Da Lat photo collage, converts it to gray, binarises it and then moves it. Most of that work is done by OpenCV, scikit-image and SciPy. This project models the integer pixel-grid logic the scripts carry out themselves and proves properties of it in Dafny:

- **Crop** (`grids.dfy`, `regions.dfy`). `full[y : y + h, x : x + w]` follows NumPy's slicing rules. It never fails: bounds are clipped, and a negative bound counts from the end. The crop is followed by the `size == 0` check, after which the script reports the error and returns.
- **Binarisation** (`binarization.dfy`). This is `(gray > t).astype(np.uint8) * 255`. The cut `t` is either one global value (the Otsu cut) or one value per pixel (the local threshold surface).
- **The toolkit helpers** (`toolkit.dfy`, bai4.py):
  - `perform_shift` zero-fills a new grid and copies a clipped window into it. It is modelled as a method over `array2<int>`, proved against a pointwise reference definition `Shifted`.
  - `perform_adaptive_thresholding` bumps an even block size to the next odd one and then does the comparison.
- **The three scenario scripts**:
  - `langbiang.dfy` covers bai1.py (crop, Otsu binarisation, shift right by 100) and bai3.py (the same crop on a copy, the same binarisation, and the zero canvas for the shift).
  - `ho_xuan_huong.dfy` covers bai2.py (crop, local-threshold binarisation, and the integer rotation centre).

Grids are values. A grid is a `seq<seq<T>>` whose rows all have the same length (`Grids.IsRect`). Because they are values, a crop can never alias its source, and writing to a crop cannot change the image it came from. Of the modelled steps, only two allocate a buffer and write it in place: the shift result of `perform_shift`, and the translation canvas that bai3.py allocates (the script is cut off before it fills the canvas). Both are `array2<int>`, and `Grids.Cells` gives their value.

The library calls whose source is not in the repository become parameters:
- `luminance: T -> int` is the per-pixel gray conversion (`cv2.cvtColor`, PIL's `convert('L')`, or the weighted `np.dot(...).astype(np.uint8)`).
- `otsu: grid -> real` is `threshold_otsu`.
- `thresholdLocal: (grid, blockSize, offset) -> surface` is `threshold_local`.

Thresholds are `real` because the library returns floating-point cuts. Gray pixels are `int`.

In bai1.py, `cv2.warpAffine` uses the matrix `[[1, 0, 100], [0, 1, 0]]`, a constant black border and the cropped region's size. A whole-pixel translation samples exactly at pixel positions, so the model takes this to be the index shift `Toolkit.Shifted(binary, 100, 0)`.

The model follows the code:
- A crop rectangle that reaches past the image is clipped (NumPy slicing), not refused.
- A block size below 3 is not an error; only its parity is fixed.
- bai2.py passes its block size of 61 straight to the local threshold, with no parity fix.

## Model

| member | source | states |
|---|---|---|
| Regions.SliceBound | bai1.py:55 | A slice bound lands in [0, n]. A non-negative bound i becomes `min(i, n)`. A negative bound counts from the end and becomes `max(0, n + i)`. |
| Regions.Slice | bai1.py:55 | A slice with non-negative bounds has `min(j - i, n - i)` elements, or none. Element k is element `start + k` of the sequence, with out-of-range bounds clipped and never an error. |
| Regions.Crop | bai3.py:25 | A crop of a rectangular grid is rectangular. |
| Regions.CropAt | bai1.py:55 | For non-negative x, y, w, h the crop has `min(h, H - y)` rows (never fewer than 0) of `min(w, W - x)` pixels. Crop pixel (i, j) is source pixel (y + i, x + j), which lies inside the source. |
| Regions.CropRegion | bai2.py:36-40 | The only failure is `EmptyRegion`. A success carries the crop itself, and that crop has pixels. |
| Regions.CropRegionEmptyIff | bai2.py:38-40 | The empty-region stop happens exactly when h = 0, w = 0, y >= H or x >= W. |
| Binarization.Binarize | bai1.py:77 | The output has the gray grid's shape and holds only 0 and 255. A pixel is 255 exactly when its gray value is strictly above the global cut. |
| Binarization.BinarizeBySurface | bai2.py:64 | For a surface of the gray grid's shape: the output has that shape and holds only 0 and 255. A pixel is 255 exactly when its gray value is strictly above the surface value at the same position. |
| Binarization.GlobalIsUniformSurface | bai4.py:80 | Binarising at a global cut t gives the same result as binarising against the surface that is t everywhere. |
| Binarization.BinarizeFixesBinary | bai3.py:45 | A property of the model, not a promise the script makes: binarising an already binary grid again at any cut in [0, 255) returns it unchanged, so the 0/255 output is a fixed point of the comparison. |
| Toolkit.CopySpan | bai4.py:43-51 | Per axis, destination start minus source start equals the shift. The copy length is positive exactly when the shift is less than the axis length in both directions. A positive-length window lies inside the grid. A position is in the destination window exactly when its pre-image lies on the axis. |
| Toolkit.Shifted | bai4.py:39-40 | The shift reference keeps the input's height and width. |
| Toolkit.PerformShift | bai4.py:37-57 | The result is a new array with the input's height and width. Its value is `Shifted`: out[y][x] = in[y - dy][x - dx] when that lies inside the grid, and 0 otherwise. The method has no `modifies` clause, so the input is only read. |
| Toolkit.PasteRow | bai4.py:53-55 | One row of the slice assignment. It fills destination row y across the horizontal copy window with the `Shifted` values and leaves every other cell unchanged. |
| Toolkit.ShiftByZero | bai4.py:43-55 | A shift by (0, 0) returns a grid equal to the input. |
| Toolkit.ShiftBeyondGridIsBlank | bai4.py:50-53 | If \|dx\| >= W or \|dy\| >= H, nothing is copied and the result is all zeros. |
| Toolkit.ShiftRoundTrip | bai4.py:43-55 | Shifting by (dx, dy) and then by (-dx, -dy) keeps the input's shape. It restores pixel (y, x) when (y + dy, x + dx) lies inside the grid, and gives 0 elsewhere. |
| Toolkit.ShiftRight | bai1.py:86-92 | A shift right by d >= 0 with no vertical move puts input pixel (y, x - d) at (y, x) from column d on and 0 in the d vacated columns. This is the translation matrix `[[1, 0, d], [0, 1, 0]]` with a black border. |
| Toolkit.ShiftKeepsBinary | bai4.py:39-55 | A shift only moves pixels and fills with 0, so a grid holding only 0 and 255 still holds only 0 and 255 after any shift. |
| Toolkit.OddBlockSize | bai4.py:75-77 | The adjusted block size is odd and is the requested size or one more. So it equals an odd request and is request + 1 for an even one. |
| Toolkit.PerformAdaptiveThresholding | bai4.py:73-81 | The output has the gray grid's shape and holds only 0 and 255. A pixel is 255 exactly when gray > surface there, where the surface is requested with the odd-adjusted block size. |
| Langbiang.BinaryRegion | bai3.py:21-45 | Crop at the origin, empty check, gray conversion, then the Otsu binarisation. A success is a rectangular grid. |
| Langbiang.BinaryRegionEmpty | bai3.py:27-29 | The only failure is `EmptyRegion`. It happens exactly when a crop size is 0 or the image has no pixels, whatever the conversion and threshold routines are. |
| Langbiang.BinaryRegionPixels | bai3.py:21-45 | The binary region has `min(hCrop, H)` rows of `min(wCrop, W)` pixels and holds only 0 and 255. Pixel (i, j) is 255 exactly when the gray value of source pixel (0 + i, 0 + j) is above the Otsu cut of the gray region. |
| Langbiang.ProcessWithCrop | bai1.py:55-94 | The whole script up to the saved image. Its only failure is `EmptyRegion`, and a success is a rectangular grid; `Langbiang.ProcessWithCropEmpty` says when it fails and `Langbiang.ProcessWithCropOutput` what a success holds. |
| Langbiang.ProcessWithCropEmpty | bai1.py:55-59 | An empty crop stops the script with `EmptyRegion` before any thresholding. This happens exactly when a crop size is 0 or the image has no pixels. |
| Langbiang.ProcessWithCropOutput | bai1.py:77-94 | The translated image has the cropped gray region's height and width and holds only 0 and 255. Pixel (y, x) is 255 exactly when x >= 100 and source pixel (y, x - 100) is above the Otsu cut. So the shift is (100, 0) and the vacated columns are 0. |
| Langbiang.ShiftedCut | bai1.py:77-92 | If a region is 255 exactly where the source pixel at the same place is above the cut, then after the shift right by 100 it holds only 0 and 255 and is 255 exactly where the source pixel 100 columns to the left is above the cut. |
| Langbiang.StartTranslation | bai3.py:50-61 | The canvas is a new all-zero array with exactly the binary region's height and width. The paste starts at x = SHIFT_AMOUNT_X = 100, y = 0, and the source width is the region's width. |
| HoXuanHuong.RotationCenter | bai2.py:70-73 | The centre is `(w // 2, h // 2)`, which is 2c <= w <= 2c + 1 on each axis. It lies inside the grid whenever w, h >= 1. |
| HoXuanHuong.ProcessWithCrop | bai2.py:36-73 | The whole script up to the rotation. A success holds a grid of only 0 and 255; `HoXuanHuong.ProcessWithCropOutcome` says which of its three results it gives and `HoXuanHuong.ProcessWithCropOutput` what a success holds. |
| HoXuanHuong.ProcessWithCropOutcome | bai2.py:36-67 | How the script ends. It stops with `EmptyRegion` exactly when hCrop = 0, wCrop = 0, yCrop >= H or xCrop >= W. Otherwise it stops with `ThresholdFailed` exactly when the surface does not have the gray region's shape, and it succeeds exactly when the surface has that shape. |
| HoXuanHuong.ProcessWithCropOutput | bai2.py:59-73 | The binary region has the crop's `min(hCrop, H - yCrop)` × `min(wCrop, W - xCrop)` shape, the same shape as the surface, and holds only 0 and 255. Pixel (i, j) is 255 exactly when the gray value of source pixel (yCrop + i, xCrop + j) is above the surface at (i, j). The rotation centre is `(w // 2, h // 2)` of the region's width and height, and it lies inside the region. |

## Left out

- Reading, showing and saving images, and the printed messages (`cv2.imread`, `Image.open`, matplotlib, `cv2.imwrite`, `print`). These are I/O. An early return is modelled as an `Err` result.
- `threshold_otsu` and `threshold_local` are foreign library code. Their results are function parameters, so the model proves nothing about how the cut or the surface is chosen.
- Gray conversion (bai3.py:33, bai4.py:25, `cv2.cvtColor`, PIL `convert('L')`) uses floating-point weights and truncation. It is a per-pixel parameter `luminance`.
- The crop fractions `int(W * 0.35)` and the like (bai1.py:52, bai2.py:31-34) are floating point. The crop rectangle is given as non-negative integers instead.
- Rotation is left out because it is floating point and uses foreign calls: `cv2.getRotationMatrix2D`, the expanded canvas size and matrix correction (bai2.py:76-92), and `perform_rotate` (bai4.py:27-35). Only the integer centre is modelled.
- `perform_scale` (bai4.py:59-71) and `perform_binary_dilation` (bai4.py:83-87) are SciPy `zoom` and morphology calls, whose source is not part of the repository.
- The source scripts are truncated: bai3.py after line 61, bai2.py after line 94 and bai4.py after line 87. So bai3's translation stops at the canvas set-up.
- Toolkit.PerformShift handles a single-channel grid of `int`. The source slices only the first two axes of a colour image, so every channel moves the same way, but the channel axis is not modelled.
- Toolkit.PerformShift, Langbiang.StartTranslation: pixel values are unbounded integers. The uint8 range of the buffers is not enforced; nothing in the modelled steps leaves 0..255.
- HoXuanHuong.ProcessWithCrop, HoXuanHuong.ProcessWithCropOutcome: the `except Exception` return around the gray conversion (bai2.py:45-46, caught at bai2.py:52-54) is not modelled. Neither is any exception `threshold_local` raises for a reason other than the surface's shape (bai2.py:59-61, caught at bai2.py:65-67). `luminance` and `thresholdLocal` are total parameters, so `ThresholdFailed` stands only for the failed comparison, and the three outcomes are exact only under that abstraction.
- HoXuanHuong.ProcessWithCrop: a surface whose shape differs from the gray region gives `Err(ThresholdFailed)`. This models the exception that the comparison raises and bai2.py:65-67 reports. NumPy broadcasting of a differently shaped surface that happens to be compatible is not modelled; `threshold_local` always returns the image's shape.
- Langbiang.ProcessWithCrop, Langbiang.BinaryRegion: the `except Exception` early returns around the gray conversion (bai1.py:68-70, bai3.py:38-40) and around `threshold_otsu` (bai1.py:78-80, bai3.py:46-48) are not modelled. The conversion `luminance` and the cut `otsu` are total parameters that return a value for any non-empty grid, so `EmptyRegion` is the only failure these two functions can give.
- Toolkit.PerformAdaptiveThresholding does not catch a surface of the wrong shape (bai4.py has no `try`). Its precondition states that the local threshold routine returns the gray grid's shape.
- A grid with no rows has width 0 here, while NumPy keeps a shape like (0, w). Both have no pixels, so the empty check is the same.

=== FILE: binarization.dfy ===
/** Binarisation of an intensity grid against a cut value: the NumPy
    expression `(gray > t).astype(np.uint8) * 255`, where `t` is either one
    global value or a surface with one cut value per pixel. */
module Binarization {
  import opened Grids

  const Foreground: int := 255
  const Background: int := 0

  /** Every pixel is 0 or 255. */
  predicate IsBinary(g: seq<seq<int>>)
  {
    forall y, x :: 0 <= y < |g| && 0 <= x < |g[y]| ==> g[y][x] == Background || g[y][x] == Foreground
  }

  /** `(gray > t).astype(np.uint8) * 255` for a global cut value `t`. */
  function Binarize(gray: seq<seq<int>>, t: real): (b: seq<seq<int>>)
    ensures SameShape(b, gray)
    ensures IsBinary(b)
    ensures forall y, x :: 0 <= y < |gray| && 0 <= x < |gray[y]| ==>
              (b[y][x] == Foreground <==> gray[y][x] as real > t)
  {
    seq(|gray|, y requires 0 <= y < |gray| =>
      seq(|gray[y]|, x requires 0 <= x < |gray[y]| =>
        if gray[y][x] as real > t then Foreground else Background))
  }

  /** `(gray > surface).astype(np.uint8) * 255` for a surface of the same
      shape as `gray`. */
  function BinarizeBySurface(gray: seq<seq<int>>, surface: seq<seq<real>>): (b: seq<seq<int>>)
    requires SameShape(surface, gray)
    ensures SameShape(b, gray)
    ensures IsBinary(b)
    ensures forall y, x :: 0 <= y < |gray| && 0 <= x < |gray[y]| ==>
              (b[y][x] == Foreground <==> gray[y][x] as real > surface[y][x])
  {
    seq(|gray|, y requires 0 <= y < |gray| =>
      seq(|gray[y]|, x requires 0 <= x < |gray[y]| =>
        if gray[y][x] as real > surface[y][x] then Foreground else Background))
  }

  /** A global cut value is the surface that holds that value everywhere. */
  lemma {:induction false} GlobalIsUniformSurface(gray: seq<seq<int>>, t: real)
    ensures Binarize(gray, t) == BinarizeBySurface(gray, MapPixels(gray, (v: int) => t))
  {
    var uniform := MapPixels(gray, (v: int) => t);
    var a, b := Binarize(gray, t), BinarizeBySurface(gray, uniform);
    forall y | 0 <= y < |gray|
      ensures a[y] == b[y]
    {
      forall x | 0 <= x < |gray[y]|
        ensures a[y][x] == b[y][x]
      {
        assert uniform[y][x] == t;
      }
    }
  }

  /** Binarising a binary grid again at any cut in [0, 255) gives it back:
      binarisation is idempotent. */
  lemma {:induction false} BinarizeFixesBinary(g: seq<seq<int>>, t: real)
    requires IsBinary(g)
    requires 0.0 <= t < 255.0
    ensures Binarize(g, t) == g
  {
    var b := Binarize(g, t);
    forall y | 0 <= y < |g|
      ensures b[y] == g[y]
    {
      forall x | 0 <= x < |g[y]|
        ensures b[y][x] == g[y][x]
      {
        assert g[y][x] == Background || g[y][x] == Foreground;
      }
    }
  }
}

=== FILE: grids.dfy ===
/** Pixel grids shared by every script: a grid is a sequence of rows of
    equal length, the value form of a two-dimensional NumPy array. */
module Grids {

  /** The failures the scripts report before returning early. */
  datatype Error =
    | EmptyRegion      // the cropped region has no pixels
    | ThresholdFailed  // the threshold step raised (caught and reported)

  datatype Result<T> = Ok(value: T) | Err(error: Error)

  /** The smaller of `a` and `b` (Python's `min`). */
  function Min(a: int, b: int): (m: int)
    ensures m <= a && m <= b && (m == a || m == b)
  {
    if a <= b then a else b
  }

  /** The larger of `a` and `b` (Python's `max`). */
  function Max(a: int, b: int): (m: int)
    ensures a <= m && b <= m && (m == a || m == b)
  {
    if a <= b then b else a
  }

  /** The length of a clipped slice: `a` wanted, `b` available, never negative. */
  function Clip(a: int, b: int): (c: nat)
    ensures c <= Max(0, a) && c <= Max(0, b)
    ensures c == a || c == b || c == 0
  {
    Max(0, Min(a, b))
  }

  /** `g` has `h` rows of `w` pixels each. */
  predicate IsGrid<T>(g: seq<seq<T>>, h: int, w: int)
  {
    |g| == h && forall y :: 0 <= y < |g| ==> |g[y]| == w
  }

  /** The number of columns; a grid without rows has none. */
  function Width<T>(g: seq<seq<T>>): (w: nat)
    ensures |g| > 0 ==> w == |g[0]|
  {
    if |g| == 0 then 0 else |g[0]|
  }

  /** Every row has the same length, as in a NumPy array. */
  predicate IsRect<T>(g: seq<seq<T>>)
  {
    IsGrid(g, |g|, Width(g))
  }

  /** `a` and `b` have the same height and the same row lengths. */
  predicate SameShape<T, U>(a: seq<seq<T>>, b: seq<seq<U>>)
  {
    |a| == |b| && forall y :: 0 <= y < |a| ==> |a[y]| == |b[y]|
  }

  /** NumPy's `size == 0`: the grid has no rows or no columns. */
  predicate HasNoPixels<T>(g: seq<seq<T>>)
  {
    |g| == 0 || Width(g) == 0
  }

  /** The all-zero grid of `h` rows and `w` columns (`np.zeros`). */
  function Blank(h: nat, w: nat): (g: seq<seq<int>>)
    ensures IsGrid(g, h, w)
    ensures forall y, x :: 0 <= y < h && 0 <= x < w ==> g[y][x] == 0
  {
    seq(h, y => seq(w, x => 0))
  }

  /** Applies a per-pixel conversion to every pixel, keeping the shape. */
  function MapPixels<T, U>(g: seq<seq<T>>, f: T -> U): (r: seq<seq<U>>)
    ensures SameShape(r, g)
    ensures forall y, x :: 0 <= y < |g| && 0 <= x < |g[y]| ==> r[y][x] == f(g[y][x])
  {
    seq(|g|, y requires 0 <= y < |g| => seq(|g[y]|, x requires 0 <= x < |g[y]| => f(g[y][x])))
  }

  /** The value held by a two-dimensional array, row by row. */
  ghost function Cells<T>(a: array2<T>): (g: seq<seq<T>>)
    reads a
    ensures IsGrid(g, a.Length0, a.Length1)
    ensures forall y, x :: 0 <= y < a.Length0 && 0 <= x < a.Length1 ==> g[y][x] == a[y, x]
  {
    seq(a.Length0, y requires 0 <= y < a.Length0 reads a =>
      seq(a.Length1, x requires 0 <= x < a.Length1 reads a => a[y, x]))
  }
}

=== FILE: ho_xuan_huong.dfy ===
/** The Ho Xuan Huong script: crops an integer rectangle, binarises it
    against a local threshold surface, and takes the centre of the binary
    region as the centre of its rotation. */
module HoXuanHuong {
  import opened Grids
  import opened Regions
  import opened Binarization

  /** ADAPTIVE_BLOCK_SIZE and ADAPTIVE_OFFSET of the script. */
  const AdaptiveBlockSize: int := 61
  const AdaptiveOffset: real := 10.0

  /** What the rotation step starts from: the binary region and the
      integer pixel it turns about. */
  datatype RotationInput = RotationInput(binary: seq<seq<int>>, centerX: int, centerY: int)

  /** `(w // 2, h // 2)`: the middle column and row, rounded down, which
      lie inside any grid with at least one row and one column. */
  function RotationCenter(h: nat, w: nat): (c: (nat, nat))
    ensures 2 * c.0 <= w <= 2 * c.0 + 1
    ensures 2 * c.1 <= h <= 2 * c.1 + 1
    ensures w >= 1 && h >= 1 ==> c.0 < w && c.1 < h
  {
    (w / 2, h / 2)
  }

  /** `process_ho_xuan_huong_with_crop` up to the rotation: crop, stop if
      empty, convert to gray pixel by pixel, get the local threshold
      surface (block size 61, offset 10), keep the pixels strictly above
      it, and take the centre. A surface whose shape differs from the gray
      region makes the comparison raise, which the script reports and
      returns from. */
  function ProcessWithCrop<T>(
    full: seq<seq<T>>, xCrop: nat, yCrop: nat, wCrop: nat, hCrop: nat,
    luminance: T -> int, thresholdLocal: (seq<seq<int>>, int, real) -> seq<seq<real>>)
    : (r: Result<RotationInput>)
    requires IsRect(full)
    ensures r.Ok? ==> IsBinary(r.value.binary)
  {
    match CropRegion(full, xCrop, yCrop, wCrop, hCrop)
    case Err(e) => Err(e)
    case Ok(region) =>
      var gray := MapPixels(region, luminance);
      var surface := thresholdLocal(gray, AdaptiveBlockSize, AdaptiveOffset);
      if !SameShape(surface, gray) then Err(ThresholdFailed)
      else
        var binary := BinarizeBySurface(gray, surface);
        var center := RotationCenter(|binary|, Width(binary));
        Ok(RotationInput(binary, center.0, center.1))
  }

  /** How the script ends. It stops with `EmptyRegion` exactly when the
      crop rectangle is degenerate or starts at or beyond the image's last
      row or column; the surface is then never asked for. Otherwise it
      stops with `ThresholdFailed` exactly when the surface does not have
      the gray region's shape, and succeeds exactly when it does. */
  lemma ProcessWithCropOutcome<T>(
    full: seq<seq<T>>, xCrop: nat, yCrop: nat, wCrop: nat, hCrop: nat,
    luminance: T -> int, thresholdLocal: (seq<seq<int>>, int, real) -> seq<seq<real>>)
    requires IsRect(full)
    ensures var r := ProcessWithCrop(full, xCrop, yCrop, wCrop, hCrop, luminance, thresholdLocal);
      var degenerate := hCrop == 0 || wCrop == 0 || yCrop >= |full| || xCrop >= Width(full);
      var gray := MapPixels(Crop(full, xCrop, yCrop, wCrop, hCrop), luminance);
      var fits := SameShape(thresholdLocal(gray, AdaptiveBlockSize, AdaptiveOffset), gray);
      && (r == Err(EmptyRegion) <==> degenerate)
      && (r == Err(ThresholdFailed) <==> !degenerate && !fits)
      && (r.Ok? <==> !degenerate && fits)
  {
    CropRegionEmptyIff(full, xCrop, yCrop, wCrop, hCrop);
  }

  /** The binary region has the crop's `min(hCrop, H - yCrop)` rows of
      `min(wCrop, W - xCrop)` pixels, holds only 0 and 255, and pixel
      (i, j) is 255 exactly when the gray value of source pixel
      (yCrop + i, xCrop + j) is above the surface there; the centre is
      the region's RotationCenter and lies inside it. */
  lemma {:induction false} ProcessWithCropOutput<T>(
    full: seq<seq<T>>, xCrop: nat, yCrop: nat, wCrop: nat, hCrop: nat,
    luminance: T -> int, thresholdLocal: (seq<seq<int>>, int, real) -> seq<seq<real>>)
    requires IsRect(full)
    ensures var r := ProcessWithCrop(full, xCrop, yCrop, wCrop, hCrop, luminance, thresholdLocal);
      var gray := MapPixels(Crop(full, xCrop, yCrop, wCrop, hCrop), luminance);
      var surface := thresholdLocal(gray, AdaptiveBlockSize, AdaptiveOffset);
      r.Ok? ==>
        && IsGrid(r.value.binary, Clip(hCrop, |full| - yCrop), Clip(wCrop, Width(full) - xCrop))
        && SameShape(surface, r.value.binary)
        && IsBinary(r.value.binary)
        && (forall i, j :: 0 <= i < |r.value.binary| && 0 <= j < |r.value.binary[i]| ==>
              && yCrop + i < |full| && xCrop + j < Width(full)
              && (r.value.binary[i][j] == Foreground <==>
                    luminance(full[yCrop + i][xCrop + j]) as real > surface[i][j]))
        && 0 <= r.value.centerX < Width(r.value.binary)
        && 0 <= r.value.centerY < |r.value.binary|
        && (r.value.centerX, r.value.centerY) == RotationCenter(|r.value.binary|, Width(r.value.binary))
  {
    var r := ProcessWithCrop(full, xCrop, yCrop, wCrop, hCrop, luminance, thresholdLocal);
    var region := Crop(full, xCrop, yCrop, wCrop, hCrop);
    CropAt(full, xCrop, yCrop, wCrop, hCrop);
    if r.Ok? {
      var gray := MapPixels(region, luminance);
      var surface := thresholdLocal(gray, AdaptiveBlockSize, AdaptiveOffset);
      var binary := r.value.binary;
      assert binary == BinarizeBySurface(gray, surface);
      forall i, j | 0 <= i < |binary| && 0 <= j < |binary[i]|
        ensures yCrop + i < |full| && xCrop + j < Width(full)
        ensures binary[i][j] == Foreground <==> luminance(full[yCrop + i][xCrop + j]) as real > surface[i][j]
      {
        assert gray[i][j] == luminance(region[i][j]);
      }
    }
  }
}

=== FILE: langbiang.dfy ===
/** The two LangBiang scripts: the one built on OpenCV crops the top-left
    region, binarises it at the Otsu cut and translates it 100 pixels to
    the right; the one without OpenCV does the same crop and binarisation
    on a copy and sets up the zero canvas for the translation. */
module Langbiang {
  import opened Grids
  import opened Regions
  import opened Binarization
  import Toolkit

  /** SHIFT_AMOUNT_X of both scripts: the region moves right by 100 pixels. */
  const ShiftAmountX: int := 100

  /** Steps 1 and 2 of both scripts: crop `full[0 : hCrop, 0 : wCrop]`,
      stop if it is empty, convert it to gray pixel by pixel, and keep the
      pixels strictly above the Otsu cut of the gray region. */
  function BinaryRegion<T>(
    full: seq<seq<T>>, wCrop: nat, hCrop: nat,
    luminance: T -> int, otsu: seq<seq<int>> -> real)
    : (r: Result<seq<seq<int>>>)
    requires IsRect(full)
    ensures r.Ok? ==> IsRect(r.value)
  {
    match CropRegion(full, 0, 0, wCrop, hCrop)
    case Err(e) => Err(e)
    case Ok(region) =>
      var gray := MapPixels(region, luminance);
      Ok(Binarize(gray, otsu(gray)))
  }

  /** An empty crop stops both scripts with `EmptyRegion`, whatever the
      conversions; it happens exactly when a crop size is zero or the image
      has no pixels. */
  lemma BinaryRegionEmpty<T>(
    full: seq<seq<T>>, wCrop: nat, hCrop: nat,
    luminance: T -> int, otsu: seq<seq<int>> -> real)
    requires IsRect(full)
    ensures var r := BinaryRegion(full, wCrop, hCrop, luminance, otsu);
      && (r.Err? ==> r.error == EmptyRegion)
      && (r.Err? <==> (wCrop == 0 || hCrop == 0 || HasNoPixels(full)))
  {
    CropRegionEmptyIff(full, 0, 0, wCrop, hCrop);
  }

  /** The binary region has `min(hCrop, H)` rows of `min(wCrop, W)` pixels,
      holds only 0 and 255, and pixel (i, j) is 255 exactly when the gray
      value of source pixel (i, j) is above the Otsu cut. */
  lemma {:induction false} BinaryRegionPixels<T>(
    full: seq<seq<T>>, wCrop: nat, hCrop: nat,
    luminance: T -> int, otsu: seq<seq<int>> -> real)
    requires IsRect(full)
    ensures var r := BinaryRegion(full, wCrop, hCrop, luminance, otsu);
      var gray := MapPixels(Crop(full, 0, 0, wCrop, hCrop), luminance);
      r.Ok? ==>
        && IsGrid(r.value, Min(hCrop, |full|), Min(wCrop, Width(full)))
        && IsBinary(r.value)
        && forall i, j :: 0 <= i < |r.value| && 0 <= j < |r.value[i]| ==>
             j < Width(full) && (r.value[i][j] == Foreground <==> luminance(full[i][j]) as real > otsu(gray))
  {
    var r := BinaryRegion(full, wCrop, hCrop, luminance, otsu);
    var region := Crop(full, 0, 0, wCrop, hCrop);
    CropAt(full, 0, 0, wCrop, hCrop);
    if r.Ok? {
      var gray := MapPixels(region, luminance);
      assert r.value == Binarize(gray, otsu(gray));
      forall i, j | 0 <= i < |r.value| && 0 <= j < |r.value[i]|
        ensures j < Width(full) && (r.value[i][j] == Foreground <==> luminance(full[i][j]) as real > otsu(gray))
      {
        assert gray[i][j] == luminance(region[i][j]);
      }
    }
  }

  /** `process_langbiang_with_crop`, up to the image it saves: the binary
      region moved right by ShiftAmountX on a canvas of its own size, the
      vacated columns black. The affine warp by a whole-pixel offset with a
      constant black border is taken to be this exact index shift. */
  function ProcessWithCrop<T>(
    full: seq<seq<T>>, wCrop: nat, hCrop: nat,
    luminance: T -> int, otsu: seq<seq<int>> -> real)
    : (r: Result<seq<seq<int>>>)
    requires IsRect(full)
    ensures r.Err? ==> r.error == EmptyRegion
    ensures r.Ok? ==> IsRect(r.value)
  {
    match BinaryRegion(full, wCrop, hCrop, luminance, otsu)
    case Err(e) => Err(e)
    case Ok(binary) => Ok(Toolkit.Shifted(binary, ShiftAmountX, 0))
  }

  /** An empty crop stops the script with `EmptyRegion` before anything
      is thresholded or translated; it happens exactly when a crop size is
      zero or the image has no pixels. */
  lemma ProcessWithCropEmpty<T>(
    full: seq<seq<T>>, wCrop: nat, hCrop: nat,
    luminance: T -> int, otsu: seq<seq<int>> -> real)
    requires IsRect(full)
    ensures var r := ProcessWithCrop(full, wCrop, hCrop, luminance, otsu);
      && (r.Err? ==> r.error == EmptyRegion)
      && (r.Err? <==> (wCrop == 0 || hCrop == 0 || HasNoPixels(full)))
  {
    BinaryRegionEmpty(full, wCrop, hCrop, luminance, otsu);
  }

  /** The saved image has the cropped gray region's height and width,
      holds only 0 and 255, and pixel (y, x) is 255 exactly when x >= 100
      and source pixel (y, x - 100) is above the Otsu cut. */
  lemma {:induction false} ProcessWithCropOutput<T>(
    full: seq<seq<T>>, wCrop: nat, hCrop: nat,
    luminance: T -> int, otsu: seq<seq<int>> -> real)
    requires IsRect(full)
    ensures var r := ProcessWithCrop(full, wCrop, hCrop, luminance, otsu);
      var gray := MapPixels(Crop(full, 0, 0, wCrop, hCrop), luminance);
      r.Ok? ==>
        && IsGrid(r.value, |gray|, Width(gray))
        && IsBinary(r.value)
        && forall y, x :: 0 <= y < |r.value| && 0 <= x < |r.value[y]| ==>
             (r.value[y][x] == Foreground <==>
                x >= ShiftAmountX && luminance(full[y][x - ShiftAmountX]) as real > otsu(gray))
  {
    BinaryRegionPixels(full, wCrop, hCrop, luminance, otsu);
    var b := BinaryRegion(full, wCrop, hCrop, luminance, otsu);
    if b.Ok? {
      var gray := MapPixels(Crop(full, 0, 0, wCrop, hCrop), luminance);
      assert SameShape(b.value, gray);
      ShiftedCut(b.value, full, luminance, otsu(gray));
    }
  }

  /** Moving a region that is 255 exactly where the source pixel at the
      same place is above `cut` right by ShiftAmountX: the result is 255
      exactly where the source pixel ShiftAmountX columns to the left is
      above `cut`, and 0 in the vacated columns. */
  lemma {:induction false} ShiftedCut<T>(
    binary: seq<seq<int>>, full: seq<seq<T>>, luminance: T -> int, cut: real)
    requires IsRect(full) && IsRect(binary) && IsBinary(binary)
    requires |binary| <= |full| && Width(binary) <= Width(full)
    requires forall i, j :: 0 <= i < |binary| && 0 <= j < |binary[i]| ==>
               (binary[i][j] == Foreground <==> luminance(full[i][j]) as real > cut)
    ensures var r := Toolkit.Shifted(binary, ShiftAmountX, 0);
      && IsBinary(r)
      && forall y, x :: 0 <= y < |r| && 0 <= x < |r[y]| ==>
           (r[y][x] == Foreground <==> x >= ShiftAmountX && luminance(full[y][x - ShiftAmountX]) as real > cut)
  {
    var r := Toolkit.Shifted(binary, ShiftAmountX, 0);
    Toolkit.ShiftRight(binary, ShiftAmountX);
    Toolkit.ShiftKeepsBinary(binary, ShiftAmountX, 0);
    forall y, x | 0 <= y < |r| && 0 <= x < |r[y]|
      ensures r[y][x] == Foreground <==> x >= ShiftAmountX && luminance(full[y][x - ShiftAmountX]) as real > cut
    {
      if x >= ShiftAmountX {
        assert r[y][x] == binary[y][x - ShiftAmountX];
      }
    }
  }

  /** Step 3 of the script without OpenCV, as far as it goes: a black
      canvas of exactly the binary region's shape, and the paste position
      (ShiftAmountX, 0), so the shift is horizontal only. */
  method StartTranslation(binary: seq<seq<int>>)
    returns (canvas: array2<int>, newXStart: int, newYStart: int, wSrc: nat)
    requires IsRect(binary)
    ensures fresh(canvas)
    ensures canvas.Length0 == |binary| && canvas.Length1 == Width(binary)
    ensures Cells(canvas) == Blank(|binary|, Width(binary))
    ensures newXStart == ShiftAmountX && newYStart == 0
    ensures wSrc == Width(binary)
  {
    canvas := new int[|binary|, Width(binary)]((y, x) => 0);
    newXStart := ShiftAmountX;
    newYStart := 0;
    wSrc := Width(binary);
    ghost var cells := Cells(canvas);
    forall y | 0 <= y < |binary|
      ensures cells[y] == Blank(|binary|, Width(binary))[y]
    {
    }
  }
}

=== FILE: regions.dfy ===
/** Rectangular crops `full[y : y + h, x : x + w]` with NumPy's slicing
    rules, and the empty-region check every script makes right after. */
module Regions {
  import opened Grids

  /** Where a slice bound `i` lands in a sequence of length `n`: a negative
      bound counts from the end, and a bound past either end is clipped. */
  function SliceBound(i: int, n: nat): (k: nat)
    ensures k <= n
    ensures 0 <= i ==> k == Min(i, n)
    ensures i < 0 ==> k == Max(0, n + i)
  {
    if i < 0 then (if i + n < 0 then 0 else i + n)
    else if i > n then n
    else i
  }

  /** `s[i : j]` with step 1. It never fails: bounds out of range are
      clipped and a reversed range is empty. */
  function Slice<T>(s: seq<T>, i: int, j: int): (r: seq<T>)
    ensures 0 <= i && 0 <= j ==> |r| == Clip(j - i, |s| - i)
    ensures |r| == Max(0, SliceBound(j, |s|) - SliceBound(i, |s|))
    ensures forall k :: 0 <= k < |r| ==> r[k] == s[SliceBound(i, |s|) + k]
  {
    var lo := SliceBound(i, |s|);
    var hi := SliceBound(j, |s|);
    if lo <= hi then s[lo..hi] else []
  }

  /** `g[y : y + h, x : x + w]`: the rows of the row slice, each cut to the
      column slice. */
  function Crop<T>(g: seq<seq<T>>, x: int, y: int, w: int, h: int): (c: seq<seq<T>>)
    ensures IsRect(g) ==> IsRect(c)
  {
    var rows := Slice(g, y, y + h);
    seq(|rows|, i requires 0 <= i < |rows| => Slice(rows[i], x, x + w))
  }

  /** Crops and stops with `EmptyRegion` when the crop has no pixels. */
  function CropRegion<T>(g: seq<seq<T>>, x: nat, y: nat, w: nat, h: nat): (r: Result<seq<seq<T>>>)
    ensures r.Err? ==> r.error == EmptyRegion
    ensures r.Ok? ==> r.value == Crop(g, x, y, w, h) && !HasNoPixels(r.value)
  {
    var region := Crop(g, x, y, w, h);
    if HasNoPixels(region) then Err(EmptyRegion) else Ok(region)
  }

  /** A crop with non-negative offsets and sizes is the sub-grid at offset
      (y, x) of `min(h, H - y)` rows and `min(w, W - x)` columns, clipped at
      the grid's edge. */
  lemma {:induction false} CropAt<T>(g: seq<seq<T>>, x: nat, y: nat, w: nat, h: nat)
    requires IsRect(g)
    ensures var c := Crop(g, x, y, w, h);
      && |c| == Clip(h, |g| - y)
      && (|c| > 0 ==> Width(c) == Clip(w, Width(g) - x))
      && IsRect(c)
      && forall i, j :: 0 <= i < |c| && 0 <= j < |c[i]| ==> y + i < |g| && x + j < Width(g) && c[i][j] == g[y + i][x + j]
  {
  }

  /** The crop is empty exactly when its rectangle is degenerate or starts
      at or beyond the grid's last row or column. */
  lemma CropRegionEmptyIff<T>(g: seq<seq<T>>, x: nat, y: nat, w: nat, h: nat)
    requires IsRect(g)
    ensures CropRegion(g, x, y, w, h).Err? <==> (h == 0 || w == 0 || y >= |g| || x >= Width(g))
  {
    CropAt(g, x, y, w, h);
  }
}

=== FILE: toolkit.dfy ===
/** The menu helpers of the toolkit script that do their own pixel work:
    translation by index copying (`perform_shift`) and adaptive
    thresholding with its block-size parity fix
    (`perform_adaptive_thresholding`). */
module Toolkit {
  import opened Grids
  import opened Binarization

  /** One axis of the copy window of a shift: where the copied stretch
      starts in the source, where it starts in the destination, and how
      long it is (no copy at all when `len <= 0`). */
  datatype Span = Span(src: int, dst: int, len: int)

  predicate InAxis(i: int, n: int) { 0 <= i < n }

  predicate InSpan(s: Span, i: int) { s.dst <= i < s.dst + s.len }

  /** The clipped source and destination stretches for an axis of length
      `n` shifted by `d`. The destination stretch is exactly the set of
      positions whose pre-image `i - d` lies on the axis, and it is empty
      exactly when the shift is at least the axis length. */
  function CopySpan(n: nat, d: int): (s: Span)
    ensures s.dst - s.src == d
    ensures s.len > 0 <==> (d < n && -d < n)
    ensures s.len > 0 ==> 0 <= s.src && s.src + s.len <= n && 0 <= s.dst && s.dst + s.len <= n
    ensures forall i :: InAxis(i, n) ==> (InSpan(s, i) <==> InAxis(i - d, n))
  {
    var src1 := Max(0, -d);
    var src2 := Min(n, n - d);
    var dst1 := Max(0, d);
    var dst2 := Min(n, n + d);
    Span(src1, dst1, Min(src2 - src1, dst2 - dst1))
  }

  /** The reference meaning of a shift by (dx, dy) with zero fill: output
      pixel (y, x) is input pixel (y - dy, x - dx) when that lies in the
      grid, and 0 otherwise. The shape is kept. */
  function Shifted(g: seq<seq<int>>, dx: int, dy: int): (r: seq<seq<int>>)
    requires IsRect(g)
    ensures IsGrid(r, |g|, Width(g))
  {
    seq(|g|, y requires 0 <= y < |g| =>
      seq(Width(g), x requires 0 <= x < Width(g) =>
        if InAxis(y - dy, |g|) && InAxis(x - dx, Width(g)) then g[y - dy][x - dx] else 0))
  }

  /** `perform_shift`: allocates a zero grid of the input's shape and
      pastes the clipped source window into the clipped destination
      window. The input is only read. */
  method PerformShift(img: array2<int>, dx: int, dy: int) returns (shifted: array2<int>)
    ensures fresh(shifted)
    ensures shifted.Length0 == img.Length0 && shifted.Length1 == img.Length1
    ensures Cells(shifted) == Shifted(Cells(img), dx, dy)
  {
    shifted := new int[img.Length0, img.Length1]((y, x) => 0);
    var h, w := img.Length0, img.Length1;
    ghost var target := Shifted(Cells(img), dx, dy);
    var xs, ys := CopySpan(w, dx), CopySpan(h, dy);
    if xs.len > 0 && ys.len > 0 {
      // the slice assignment, one row of the window at a time
      var i := 0;
      while i < ys.len
        invariant 0 <= i <= ys.len
        invariant forall y, x :: 0 <= y < h && 0 <= x < w ==>
                    shifted[y, x] == if ys.dst <= y < ys.dst + i && InSpan(xs, x) then target[y][x] else 0
      {
        PasteRow(img, dx, dy, shifted, ys.dst + i);
        i := i + 1;
      }
    }
    forall y, x | 0 <= y < h && 0 <= x < w
      ensures shifted[y, x] == target[y][x]
    {
      assert InAxis(y, h) && InAxis(x, w);
    }
    var after := Cells(shifted);
    forall y | 0 <= y < h
      ensures after[y] == target[y]
    {
    }
  }

  /** One row of the slice assignment: destination row `y` of `shifted`
      receives the columns of the horizontal copy window from source row
      `y - dy`; every other cell keeps its value. */
  method PasteRow(img: array2<int>, dx: int, dy: int, shifted: array2<int>, y: int)
    requires shifted != img
    requires shifted.Length0 == img.Length0 && shifted.Length1 == img.Length1
    requires InSpan(CopySpan(img.Length0, dy), y) && CopySpan(img.Length1, dx).len > 0
    modifies shifted
    ensures forall r, c :: 0 <= r < shifted.Length0 && 0 <= c < shifted.Length1 ==>
              shifted[r, c] == if r == y && InSpan(CopySpan(img.Length1, dx), c)
                               then Shifted(Cells(img), dx, dy)[r][c] else old(shifted[r, c])
  {
    var h, w := img.Length0, img.Length1;
    var xs, ys := CopySpan(w, dx), CopySpan(h, dy);
    ghost var target := Shifted(Cells(img), dx, dy);
    assert InAxis(y, h) && InAxis(y - dy, h);
    var j := 0;
    while j < xs.len
      invariant 0 <= j <= xs.len
      invariant forall r, c :: 0 <= r < h && 0 <= c < w ==>
                  shifted[r, c] == if r == y && xs.dst <= c < xs.dst + j then target[r][c] else old(shifted[r, c])
    {
      assert InAxis(xs.dst + j, w) && InAxis(xs.src + j, w);
      shifted[y, xs.dst + j] := img[y - dy, xs.src + j];
      j := j + 1;
    }
  }

  /** Shifting by (0, 0) returns a grid equal to the input. */
  lemma {:induction false} ShiftByZero(g: seq<seq<int>>)
    requires IsRect(g)
    ensures Shifted(g, 0, 0) == g
  {
    var r := Shifted(g, 0, 0);
    forall y | 0 <= y < |g|
      ensures r[y] == g[y]
    {
      forall x | 0 <= x < |g[y]|
        ensures r[y][x] == g[y][x]
      {
        assert InAxis(y, |g|) && InAxis(x, Width(g));
      }
    }
  }

  /** A shift by at least the width or the height copies nothing: the
      result is all zeros. */
  lemma {:induction false} ShiftBeyondGridIsBlank(g: seq<seq<int>>, dx: int, dy: int)
    requires IsRect(g)
    requires dx >= Width(g) || -dx >= Width(g) || dy >= |g| || -dy >= |g|
    ensures Shifted(g, dx, dy) == Blank(|g|, Width(g))
  {
    var r, z := Shifted(g, dx, dy), Blank(|g|, Width(g));
    forall y | 0 <= y < |g|
      ensures r[y] == z[y]
    {
      forall x | 0 <= x < Width(g)
        ensures r[y][x] == 0
      {
        assert !(InAxis(y - dy, |g|) && InAxis(x - dx, Width(g)));
      }
    }
  }

  /** Shifting by (dx, dy) and back by (-dx, -dy) restores every pixel
      whose shifted position (y + dy, x + dx) stayed in the grid and
      clears every other pixel. */
  lemma {:induction false} ShiftRoundTrip(g: seq<seq<int>>, dx: int, dy: int)
    requires IsRect(g)
    ensures var back := Shifted(Shifted(g, dx, dy), -dx, -dy);
      && IsGrid(back, |g|, Width(g))
      && forall y, x :: 0 <= y < |g| && 0 <= x < Width(g) ==>
           back[y][x] == if InAxis(y + dy, |g|) && InAxis(x + dx, Width(g)) then g[y][x] else 0
  {
    var there := Shifted(g, dx, dy);
    var back := Shifted(there, -dx, -dy);
    forall y, x | 0 <= y < |g| && 0 <= x < Width(g)
      ensures back[y][x] == if InAxis(y + dy, |g|) && InAxis(x + dx, Width(g)) then g[y][x] else 0
    {
      assert Width(there) == Width(g);
      if InAxis(y + dy, |g|) && InAxis(x + dx, Width(g)) {
        assert InAxis((y + dy) - dy, |g|) && InAxis((x + dx) - dx, Width(g));
        assert there[y + dy][x + dx] == g[y][x];
      }
    }
  }

  /** A horizontal shift by `d >= 0`: output pixel (y, x) is input pixel
      (y, x - d) from column `d` on, and 0 in the `d` vacated columns. */
  lemma {:induction false} ShiftRight(g: seq<seq<int>>, d: nat)
    requires IsRect(g)
    ensures var r := Shifted(g, d, 0);
      forall y, x :: 0 <= y < |g| && 0 <= x < Width(g) ==>
        r[y][x] == if x >= d then g[y][x - d] else 0
  {
    var r := Shifted(g, d, 0);
    forall y, x | 0 <= y < |g| && 0 <= x < Width(g)
      ensures r[y][x] == if x >= d then g[y][x - d] else 0
    {
      assert InAxis(y - 0, |g|);
      if x >= d {
        assert InAxis(x - d, Width(g));
        assert r[y][x] == g[y - 0][x - d];
      } else {
        assert !InAxis(x - d, Width(g));
        assert r[y][x] == 0;
      }
    }
  }

  /** A shift only moves pixels and fills with 0, so a 0/255 grid stays one. */
  lemma {:induction false} ShiftKeepsBinary(g: seq<seq<int>>, dx: int, dy: int)
    requires IsRect(g) && IsBinary(g)
    ensures IsBinary(Shifted(g, dx, dy))
  {
    var r := Shifted(g, dx, dy);
    forall y, x | 0 <= y < |r| && 0 <= x < |r[y]|
      ensures r[y][x] == Background || r[y][x] == Foreground
    {
      if InAxis(y - dy, |g|) && InAxis(x - dx, Width(g)) {
        assert r[y][x] == g[y - dy][x - dx];
      }
    }
  }

  /** The block size after the parity fix: the least odd integer not
      below the requested one. */
  function OddBlockSize(blockSize: int): (b: int)
    ensures b % 2 == 1
    ensures blockSize <= b <= blockSize + 1
  {
    if blockSize % 2 == 0 then blockSize + 1 else blockSize
  }

  /** `perform_adaptive_thresholding`: bumps an even block size to the
      next odd one, asks the local-threshold routine for the cut surface
      with that block size, and keeps the pixels strictly above it. */
  method PerformAdaptiveThresholding(
    gray: seq<seq<int>>, blockSize: int, offset: real,
    thresholdLocal: (seq<seq<int>>, int, real) -> seq<seq<real>>)
    returns (binary: seq<seq<int>>)
    requires SameShape(thresholdLocal(gray, OddBlockSize(blockSize), offset), gray)
    ensures SameShape(binary, gray)
    ensures IsBinary(binary)
    ensures var surface := thresholdLocal(gray, OddBlockSize(blockSize), offset);
      forall y, x :: 0 <= y < |gray| && 0 <= x < |gray[y]| ==>
        (binary[y][x] == Foreground <==> gray[y][x] as real > surface[y][x])
  {
    var b := blockSize;
    if b % 2 == 0 {
      b := b + 1;
    }
    var surface := thresholdLocal(gray, b, offset);
    binary := BinarizeBySurface(gray, surface);
  }
}
